=== FILE: README.md ===
# Snake engine model

A Dafny model of the tick-based engine of the grid snake game in
`snake-game/snake.js`: the perimeter wall and the initial snake, the unit
step of each direction, the `collide` membership test, treat placement with
its reposition timeout, movement with growth, scoring and collision, the
per-tick `update`, periodic level-up with an interval floor, key handling
(turns, pause, resume), the HUD state label and the high-score update.

The model is purely functional. `Game` holds the source's `Snake.State`
counters and flags, the snake (head first) and an optional treat. Each
engine operation is a function from the old game to the new one. The global
`highestScore` is passed in and returned in an `Outcome`. The random treat
cell is a caller-supplied stream of draws, each in the range
`randomInt(1, boxSize - 1)` produces. Placement takes the first draw that is
on neither the snake nor the wall, as the retry loop does.

Modules: `Options` (the optional treat), `Geometry` (cells, directions,
wall, initial snake), `GameState` (configuration, state, new game),
`Engine` (the operations of `Snake.Game`), `Invariants` (what holds across
ticks and key presses, and runs of events).

The model follows the code's own order of effects within `moveSnake`:
- the score is added and the treat dropped before the collision test;
- the tail is popped before the self-collision test, so moving into the
  cell the tail just left is safe;
- the new head is prepended even on the fatal move;
- `update` still counts the fatal tick and may level up on it.

`Invariants.EatingIsNeverFatal` shows that, under the invariant, the move
that eats the treat cannot also be fatal. Scoring before or after the
collision test therefore gives the same result.

Behaviours of the code that a reader might not expect, all modelled as written:
- The wall list holds `4N - 3` cells, not `4N - 4`: the corner `(0, N-1)` is
  emitted by both the left and the top loop (`Geometry.InitBox`).
- On a fatal move the head is still prepended, so the final snake overlaps the wall or itself.
- The one-key-per-tick guard in `onkeydown` also blocks pause and resume, not
  only turns. So a turn accepted while paused stamps `lastKeyTick` with a tick
  count that cannot advance while paused. After that the resume key, and every
  other key and tick, is ignored for good (`Invariants.PausedTurnFreezes`,
  `Invariants.TurnWhilePausedBlocksResume`).
- When the snake fills every interior cell (a won game, (N-2)^2 cells) and
  the treat has just been eaten, the next tick's placement loop can never
  find a free cell, so the source hangs in that loop
  (`Invariants.FullBoardStalls`).

## Model

| member | source | states |
|---|---|---|
| `GameState.DefaultConfig` | snake-game/snake.js:4-25 | the built-in configuration (board 15, snake 3, level period 30, reposition 30, step 200, floor 300) satisfies the engine's configuration requirements |
| `GameState.NewGame` | snake-game/snake.js:75-89 | a new game has exactly the initial snake, no treat, score 0, level 1, ticks and both stamps 0, interval 500, faces Up, and is neither over nor paused |
| `Geometry.DirOfKey` | snake-game/snake.js:43-48 | a key code selects a direction exactly when it is that direction's code |
| `Geometry.KeyCodeRoundTrip` | snake-game/snake.js:43-48 | decoding a direction's key code gives that direction back |
| `Geometry.Opposite` | snake-game/snake.js:467-470 | the reverse of a direction is never the direction itself and steps by the negated unit vector |
| `Geometry.OppositeInvolution` | snake-game/snake.js:467-470 | reversing twice gives back the direction |
| `Geometry.Shift` | snake-game/snake.js:137-154 | each direction steps by a unit vector; Up raises y, Down lowers it, Right raises x, Left lowers it |
| `Geometry.ShiftOpposite` | snake-game/snake.js:137-154 | reverse directions step in opposite directions, and distinct directions step differently |
| `Geometry.Step` | snake-game/snake.js:159-162 | the new head is at Manhattan distance 1 from the old head |
| `Geometry.StepBack` | snake-game/snake.js:159-162 | a step and a step in the reverse direction cancel |
| `Geometry.Collide` | snake-game/snake.js:65-72 | `collide` is true iff some element equals the point in both coordinates, i.e. iff the point is in the list |
| `Geometry.InitBox` | snake-game/snake.js:97-124 | every wall cell is a perimeter cell of the board; for N >= 2 the list has 4N-3 entries and (0, N-1) occurs at positions N-1 and 2N-1 |
| `Geometry.BoxIsPerimeter` | snake-game/snake.js:97-124 | a cell is in the wall list iff it is on the outer ring of the N-by-N board |
| `Geometry.InitSnake` | snake-game/snake.js:126-134 | L cells in column N/2, head (N/2, L) to tail (N/2, 1), y strictly falling from head to tail, pairwise distinct, and strictly inside the wall when L <= N-2 |
| `Engine.UpdateHighestScore` | snake-game/snake.js:204-210 | the high score becomes the larger of the old high score and the final score |
| `Engine.StateDescription` | snake-game/snake.js:431-440 | the label is empty iff the game is running; game over takes precedence over pause |
| `Engine.FirstFreeDraw` | snake-game/snake.js:226-237 | the retry loop stops at a free draw, and every earlier draw was on the snake or the wall |
| `Engine.PlaceTreat` | snake-game/snake.js:218-238 | a treat is always present afterwards; an unexpired treat is left alone; otherwise the first free draw becomes the treat, off the snake and inside the wall, and `lastTreatTick` becomes `ticks`, with nothing else changed |
| `Engine.NextHead` | snake-game/snake.js:158-162 | the new head is at distance 1 from the old head, and stepping back in the reverse of the current direction returns to the old head, so it is the neighbour in the current direction |
| `Engine.MoveSnake` | snake-game/snake.js:157-201 | eating adds `level` to the score, drops the treat and keeps the whole old snake behind the new head; otherwise the score and treat stay and the tail is popped; the move is fatal iff the new head is on the wall or on the body left behind it; the head is prepended either way; the high score is updated only on a fatal move |
| `Engine.LevelIncrease` | snake-game/snake.js:481-493 | nothing changes unless the tick count is a multiple of the level period; then the level rises by one and the interval drops by the step or is clamped at the floor, never below it |
| `Engine.Update` | snake-game/snake.js:241-252 | a no-op when over or paused; otherwise exactly one tick is counted (fatal ticks included), the level rises iff the new count is a multiple of the period, direction, pause and key stamp are untouched, the high score only rises on game over, and the snake has moved: the new head is one step from the old head in the current direction; if the treat was eaten (no treat remains) the whole old snake follows it, the length grows by one and the score by `level`; otherwise the tail is popped and the score is unchanged; the game ends on this tick iff the new head is on the wall or on the body behind it |
| `Engine.OnKeyDown` | snake-game/snake.js:458-479 | ignored when over or a key was taken this tick; a key that is neither an allowed turn nor P nor R (a reverse key included) changes nothing; the reverse of the current direction is never taken; an accepted turn sets the direction and stamps `lastKeyTick`; only P sets and only R clears `paused`; snake, treat and counters are untouched |
| `Invariants.NewGameInv` | snake-game/snake.js:75-89 | a new game satisfies the invariant |
| `Invariants.DivStep` | snake-game/snake.js:249-251 | one more tick raises `ticks / levelInterval` exactly when the new count is a multiple of the period |
| `Invariants.IntervalStep` | snake-game/snake.js:488-492 | one clamped decrease from the interval of level l gives the interval of level l+1 |
| `Invariants.MoveKeepsAlive` | snake-game/snake.js:180-191 | a move that is not fatal leaves the snake distinct and inside the wall, and the treat off the snake |
| `Invariants.EatingIsNeverFatal` | snake-game/snake.js:165-191 | under the invariant, the move onto the treat is never fatal and scores `level` |
| `Invariants.TailChaseIsSafe` | snake-game/snake.js:175-191 | moving into the cell the tail just left does not end the game |
| `Invariants.PlaceKeepsInv` | snake-game/snake.js:218-238 | treat placement keeps the invariant |
| `Invariants.MoveKeepsInv` | snake-game/snake.js:157-193 | the move keeps the invariant, including on a fatal move, and never shortens the snake |
| `Invariants.CountKeepsInv` | snake-game/snake.js:481-493 | counting a tick then levelling up keeps `level == 1 + ticks / levelInterval` and the interval equal to `max(minInterval, 500 - step * (level - 1))` |
| `Invariants.UpdateInv` | snake-game/snake.js:241-252 | `update` keeps the invariant |
| `Invariants.UpdateAdvances` | snake-game/snake.js:241-252 | a running tick counts one tick, keeps the level formula, and never raises the interval or lowers it below the floor |
| `Invariants.LabelMeansFrozen` | snake-game/snake.js:431-440 | the HUD shows a label exactly when `update` would change nothing |
| `Invariants.KeyInv` | snake-game/snake.js:458-479 | key handling keeps the invariant |
| `Invariants.ReverseKeyIgnored` | snake-game/snake.js:467-470 | pressing the exact reverse of the current direction leaves the whole game unchanged |
| `Invariants.OneTurnPerTick` | snake-game/snake.js:462-472 | after a turn is accepted, any further key in the same tick is ignored |
| `Invariants.PauseResumeIdempotent` | snake-game/snake.js:473-477 | pause and resume are idempotent and change only the pause flag |
| `Invariants.FullInteriorHasNoFreeDraw` | snake-game/snake.js:229-237 | when the snake covers every interior cell, every cell of the draw range is on the snake or the wall |
| `Invariants.FullBoardStalls` | snake-game/snake.js:218-238 | on a running game with a full interior and no treat, no stream of draws lets placement succeed |
| `Invariants.RunInv` | snake-game/snake.js:241-252 | over any sequence of ticks and keys the invariant holds, ticks and the high score never decrease, and a game that is over never changes |
| `Invariants.PausedTurnFreezes` | snake-game/snake.js:458-479 | a paused game whose key stamp equals its tick count never changes again, whatever ticks and keys follow |
| `Invariants.TurnWhilePausedBlocksResume` | snake-game/snake.js:458-479 | a turn accepted while paused reaches that state, and the resume key is then ignored |

## Left out

- Drawing: grid, box, snake, treat, HUD and high-score display, the random
  colours and treat images, the page template and the cell ids. They are
  presentation only.
- The `loop` scheduling through `setTimeout`, game construction running the
  first tick, the new-game and logout buttons, and `window.onload`. These are
  host timing and page wiring. Resume never re-arms the timer in the source;
  that is host timing too.
- `randomInt` and `Math.random`: floating-point randomness. The caller
  supplies the draws instead.
- Engine.PlaceTreat: the unbounded retry loop is not modelled. The caller's
  finite draw stream must contain a free cell whenever a treat is placed.
  On a full board no stream does, so the source's hang there is not a
  state the model runs into; runs of events stop before it.
- Engine.MoveSnake: requires a present treat. The source would fail reading a
  missing treat, and `update` always places one first.
- Engine.LevelIncrease: requires a positive level period. The source's
  configuration is fixed at 30.
- JavaScript numbers are doubles. The model uses unbounded integers, which
  agree with the source for all counts below 2^53.
- The box is computed from the board size wherever it is needed, rather than
  stored once per game. It is deterministic and never changes, so the two
  agree.
- The HTTP service (`server.js`, `content/server.js`): request routing,
  database queries and password hashing over libraries that are not part of
  this model.

=== FILE: engine.dfy ===
/**
 The tick engine of `Snake.Game`: treat placement, movement with growth and
 collision, level progression, the per-tick `update`, key handling, the
 HUD state label and the high-score update. Every operation is a pure
 function from the old game to the new one; the global high score is
 passed in and returned explicitly.
 */
module Engine {

  import opened Options
  import opened Geometry
  import opened GameState

  /** A game together with the high score after an operation. */
  datatype Outcome = Outcome(game: Game, highestScore: int)

  /* ---------- High score and HUD label ---------- */

  /** The high score after a game ends with `score`. */
  function UpdateHighestScore(high: int, score: int): (r: int)
    ensures r >= high && r >= score
    ensures r == high || r == score
  {
    Max(high, score)
  }

  const GameOverLabel: string := "GAME OVER"
  const PausedLabel: string := "PAUSED (PRESS R TO RESUME)"

  /** The HUD status line; game over takes precedence over pause. */
  function StateDescription(s: State): (r: string)
    ensures r == "" <==> !s.gameOver && !s.paused
    ensures s.gameOver ==> r == GameOverLabel
    ensures r == PausedLabel <==> !s.gameOver && s.paused
  {
    if s.gameOver then GameOverLabel
    else if s.paused then PausedLabel
    else ""
  }

  /* ---------- Treat placement ---------- */

  /** The range `randomInt(1, boxSize - 1)` draws each coordinate from. */
  predicate InDrawRange(n: int, p: Point)
  {
    1 <= p.x <= n - 1 && 1 <= p.y <= n - 1
  }

  /** A draw the placement loop accepts: on neither the snake nor the wall. */
  predicate FreeCell(c: Config, snake: seq<Point>, p: Point)
  {
    !Collide(p, snake) && !Collide(p, InitBox(c.boxSize))
  }

  /** The current treat has been waiting for the reposition timeout. */
  predicate TreatExpired(c: Config, s: State)
  {
    s.ticks - s.lastTreatTick >= c.treatReposition
  }

  /** A treat will be (re)placed: none exists or the existing one expired. */
  predicate NeedsTreat(c: Config, g: Game)
  {
    g.treat.None? || TreatExpired(c, g.state)
  }

  /**
   `draws` is the stream of random cells the placement loop would try:
   each lies in the draw range, and if placement happens one is free.
   */
  predicate CanPlace(c: Config, g: Game, draws: seq<Point>)
  {
    && (forall i :: 0 <= i < |draws| ==> InDrawRange(c.boxSize, draws[i]))
    && (NeedsTreat(c, g) ==> exists i :: 0 <= i < |draws| && FreeCell(c, g.snake, draws[i]))
  }

  /** The index of the first free draw at or after `from`: the draw the retry loop stops at. */
  function FirstFreeDraw(c: Config, snake: seq<Point>, draws: seq<Point>, from: nat): (r: nat)
    requires exists i :: from <= i < |draws| && FreeCell(c, snake, draws[i])
    ensures from <= r < |draws| && FreeCell(c, snake, draws[r])
    ensures forall j :: from <= j < r ==> !FreeCell(c, snake, draws[j])
    decreases |draws| - from
  {
    if FreeCell(c, snake, draws[from]) then from
    else FirstFreeDraw(c, snake, draws, from + 1)
  }

  /**
   `placeTreat`: drop an expired treat; if none remains, take the first free
   draw and stamp `lastTreatTick` with the current tick.
   */
  function PlaceTreat(c: Config, g: Game, draws: seq<Point>): (r: Game)
    requires CanPlace(c, g, draws)
    ensures r.treat.Some?
    ensures !NeedsTreat(c, g) ==> r == g
    ensures NeedsTreat(c, g) ==>
      && r.snake == g.snake
      && r.state == g.state.(lastTreatTick := g.state.ticks)
      && r.treat.value !in g.snake
      && Interior(c.boxSize, r.treat.value)
      && exists i :: 0 <= i < |draws| && draws[i] == r.treat.value
           && forall j :: 0 <= j < i ==> !FreeCell(c, g.snake, draws[j])
  {
    var kept := if TreatExpired(c, g.state) then None else g.treat;
    if kept.Some? then g
    else
      var i := FirstFreeDraw(c, g.snake, draws, 0);
      OffBoxIsInterior(c.boxSize, draws[i]);
      Game(g.state.(lastTreatTick := g.state.ticks), g.snake, Some(draws[i]))
  }

  /* ---------- Movement ---------- */

  /** The cell the head moves to this tick. */
  function NextHead(g: Game): (r: Point)
    requires |g.snake| > 0
    ensures Distance(g.snake[0], r) == 1
    ensures Step(r, Opposite(g.state.direction)) == g.snake[0]
  {
    StepBack(g.snake[0], g.state.direction);
    Step(g.snake[0], g.state.direction)
  }

  /** The move lands on the treat. */
  predicate Eats(g: Game)
    requires |g.snake| > 0
  {
    g.treat.Some? && NextHead(g) == g.treat.value
  }

  /**
   `moveSnake`: score and keep the tail when the head lands on the treat,
   otherwise pop the tail; the move is fatal when the new head is on the wall
   or on the body left after the pop; the head is prepended either way.
   */
  function MoveSnake(c: Config, g: Game, high: int): (r: Outcome)
    requires |g.snake| > 0 && g.treat.Some?
    ensures |r.game.snake| > 0 && r.game.snake[0] == NextHead(g)
    ensures Eats(g) ==>
      && r.game.state.score == g.state.score + g.state.level
      && r.game.treat.None?
      && r.game.snake[1..] == g.snake
    ensures !Eats(g) ==>
      && r.game.state.score == g.state.score
      && r.game.treat == g.treat
      && r.game.snake[1..] == g.snake[..|g.snake| - 1]
    ensures r.game.state.gameOver <==>
      g.state.gameOver || OnPerimeter(c.boxSize, NextHead(g)) || NextHead(g) in r.game.snake[1..]
    ensures r.game.state.(score := g.state.score, gameOver := g.state.gameOver) == g.state
    ensures r.highestScore ==
      if OnPerimeter(c.boxSize, NextHead(g)) || NextHead(g) in r.game.snake[1..]
      then UpdateHighestScore(high, r.game.state.score) else high
  {
    var head := NextHead(g);
    var eats := Collide(head, [g.treat.value]);
    var scored := if eats then g.state.(score := g.state.score + g.state.level) else g.state;
    var treat := if eats then None else g.treat;
    var body := if eats then g.snake else g.snake[..|g.snake| - 1];
    var fatal := Collide(head, InitBox(c.boxSize)) || Collide(head, body);
    BoxIsPerimeter(c.boxSize, head);
    assert ([head] + body)[1..] == body;
    Outcome(
      Game(if fatal then scored.(gameOver := true) else scored, [head] + body, treat),
      if fatal then UpdateHighestScore(high, scored.score) else high)
  }

  /* ---------- Progression ---------- */

  /**
   `levelIncrease`: on every tick count divisible by the level period, one
   level up and a shorter interval, never below the floor.
   */
  function LevelIncrease(c: Config, s: State): (r: State)
    requires c.levelInterval > 0
    ensures s.ticks % c.levelInterval != 0 ==> r == s
    ensures s.ticks % c.levelInterval == 0 ==>
      && r.level == s.level + 1
      && r.loopIntervalM >= c.minInterval
      && (r.loopIntervalM == s.loopIntervalM - c.levelIncreaseM || r.loopIntervalM == c.minInterval)
      && (r.loopIntervalM == c.minInterval ==> s.loopIntervalM - c.levelIncreaseM <= c.minInterval)
    ensures r.(level := s.level, loopIntervalM := s.loopIntervalM) == s
  {
    if s.ticks % c.levelInterval != 0 then s
    else
      var lowered := s.loopIntervalM - c.levelIncreaseM;
      s.(level := s.level + 1, loopIntervalM := if lowered < c.minInterval then c.minInterval else lowered)
  }

  /**
   `update`: nothing while over or paused; otherwise place the treat, move,
   count the tick and level up. The tick is counted even when the move is fatal.
   */
  function Update(c: Config, g: Game, high: int, draws: seq<Point>): (r: Outcome)
    requires ValidConfig(c)
    requires !g.state.gameOver && !g.state.paused ==> |g.snake| > 0 && CanPlace(c, g, draws)
    ensures g.state.gameOver || g.state.paused ==> r == Outcome(g, high)
    ensures !g.state.gameOver && !g.state.paused ==>
      && r.game.state.ticks == g.state.ticks + 1
      && r.game.state.level == g.state.level + (if r.game.state.ticks % c.levelInterval == 0 then 1 else 0)
      && r.game.state.paused == g.state.paused
      && r.game.state.direction == g.state.direction
      && r.game.state.lastKeyTick == g.state.lastKeyTick
      && r.highestScore >= high
      && (r.highestScore != high ==> r.game.state.gameOver)
      && |r.game.snake| == |g.snake| + (if r.game.treat.None? then 1 else 0)
      && r.game.snake[0] == Step(g.snake[0], g.state.direction)
      && r.game.snake[1..] == (if r.game.treat.None? then g.snake else g.snake[..|g.snake| - 1])
      && r.game.state.score == g.state.score + (if r.game.treat.None? then g.state.level else 0)
      && (r.game.state.gameOver <==>
            OnPerimeter(c.boxSize, r.game.snake[0]) || r.game.snake[0] in r.game.snake[1..])
  {
    if g.state.gameOver || g.state.paused then Outcome(g, high)
    else
      var placed := PlaceTreat(c, g, draws);
      var moved := MoveSnake(c, placed, high);
      var counted := moved.game.state.(ticks := moved.game.state.ticks + 1);
      Outcome(moved.game.(state := LevelIncrease(c, counted)), moved.highestScore)
  }

  /* ---------- Input ---------- */

  /** Key handling is blocked: the game is over or a direction was already taken this tick. */
  predicate KeysBlocked(s: State)
  {
    s.gameOver || s.lastKeyTick == s.ticks
  }

  /** `k` is a direction key that is not the reverse of the current direction. */
  predicate TurnAllowed(s: State, k: int)
  {
    DirOfKey(k).Some? && DirOfKey(k).value != Opposite(s.direction)
  }

  /**
   `onkeydown`: ignored when blocked; a non-reverse direction key turns and
   stamps `lastKeyTick`; P pauses and R resumes; anything else does nothing.
   */
  function OnKeyDown(g: Game, k: int): (r: Game)
    ensures KeysBlocked(g.state) ==> r == g
    ensures !TurnAllowed(g.state, k) && k != PauseKey && k != ResumeKey ==> r == g
    ensures r.state.direction != Opposite(g.state.direction)
    ensures !KeysBlocked(g.state) && TurnAllowed(g.state, k) ==>
      KeyCode(r.state.direction) == k && r.state.lastKeyTick == r.state.ticks
    ensures r.state.direction != g.state.direction || r.state.lastKeyTick != g.state.lastKeyTick ==>
      r.state.lastKeyTick == r.state.ticks
    ensures r.state.paused != g.state.paused ==>
      (k == PauseKey && r.state.paused) || (k == ResumeKey && !r.state.paused)
    ensures r.snake == g.snake && r.treat == g.treat
    ensures r.state.(direction := g.state.direction, lastKeyTick := g.state.lastKeyTick, paused := g.state.paused) == g.state
  {
    if KeysBlocked(g.state) then g
    else if TurnAllowed(g.state, k) then
      g.(state := g.state.(direction := DirOfKey(k).value, lastKeyTick := g.state.ticks))
    else if k == PauseKey then g.(state := g.state.(paused := true))
    else if k == ResumeKey then g.(state := g.state.(paused := false))
    else g
  }
}

=== FILE: gamestate.dfy ===
/**
 The engine's data: the fixed configuration, the per-game counters and
 flags (`Snake.State`), and a whole game: state, snake body (head first)
 and the optional treat.
 */
module GameState {

  import opened Options
  import opened Geometry

  /** `Snake.Config`; `pixelSize` only affects drawing. */
  datatype Config = Config(
    pixelSize: int,
    boxSize: int,
    snakeLength: int,
    levelInterval: int,
    treatReposition: int,
    levelIncreaseM: int,
    minInterval: int)

  /** The configuration the game is built with. */
  function DefaultConfig(): (c: Config)
    ensures ValidConfig(c)
  {
    Config(20, 15, 3, 30, 30, 200, 300)
  }

  /** The loop interval of a fresh game, in milliseconds. */
  const InitialInterval: int := 500

  /**
   Room for a non-colliding initial snake, a positive level period, a
   non-negative speed step and a floor no higher than the starting interval.
   */
  predicate ValidConfig(c: Config)
  {
    && 1 <= c.snakeLength
    && c.snakeLength + 2 <= c.boxSize
    && c.levelInterval > 0
    && c.levelIncreaseM >= 0
    && 0 < c.minInterval <= InitialInterval
  }

  /** `Snake.State`. */
  datatype State = State(
    gameOver: bool,
    paused: bool,
    level: int,
    score: int,
    ticks: int,
    lastKeyTick: int,
    lastTreatTick: int,
    loopIntervalM: int,
    direction: Dir)

  function InitialState(): State
  {
    State(false, false, 1, 0, 0, 0, 0, InitialInterval, Up)
  }

  /** One game: its state, the snake from head to tail, and the treat if one exists. */
  datatype Game = Game(state: State, snake: seq<Point>, treat: Option<Point>)

  /** A game as construction leaves it, before the first tick runs. */
  function NewGame(c: Config): (g: Game)
    ensures g.treat.None? && !g.state.gameOver && !g.state.paused
    ensures g.snake == InitSnake(c.boxSize, c.snakeLength)
    ensures g.state.score == 0 && g.state.level == 1 && g.state.ticks == 0
    ensures g.state.lastKeyTick == 0 && g.state.lastTreatTick == 0
    ensures g.state.loopIntervalM == InitialInterval && g.state.direction == Up
  {
    Game(InitialState(), InitSnake(c.boxSize, c.snakeLength), None)
  }

  function Max(a: int, b: int): (r: int)
    ensures r >= a && r >= b && (r == a || r == b)
  {
    if a >= b then a else b
  }
}

=== FILE: geometry.dfy ===
/**
 Board geometry of the snake engine (snake-game/snake.js): cells, the four
 directions with their key codes, the unit step of each direction, the
 membership test `collide`, the perimeter wall and the initial snake.
 The y axis grows upward.
 */
module Geometry {

  import opened Options

  /** A board cell. Equality of points is component-wise. */
  datatype Point = Point(x: int, y: int)

  function Abs(n: int): nat
  {
    if n < 0 then -n else n
  }

  /** Manhattan distance between two cells. */
  function Distance(p: Point, q: Point): nat
  {
    Abs(p.x - q.x) + Abs(p.y - q.y)
  }

  /* ---------- Directions and key codes ---------- */

  datatype Dir = Up | Down | Left | Right

  /** The key code the host delivers for each direction. */
  function KeyCode(d: Dir): int
  {
    match d
    case Up => 38
    case Down => 40
    case Left => 37
    case Right => 39
  }

  const PauseKey: int := 80
  const ResumeKey: int := 82

  /** The direction a key code selects, if any. */
  function DirOfKey(k: int): (r: Option<Dir>)
    ensures r.Some? ==> KeyCode(r.value) == k
    ensures r.None? ==> forall d: Dir :: KeyCode(d) != k
  {
    if k == 38 then Some(Up)
    else if k == 40 then Some(Down)
    else if k == 37 then Some(Left)
    else if k == 39 then Some(Right)
    else None
  }

  /** Decoding a direction's own key code gives back that direction. */
  lemma KeyCodeRoundTrip(d: Dir)
    ensures DirOfKey(KeyCode(d)) == Some(d)
  {
  }

  /** Pause and resume are not direction keys. */
  lemma ControlKeysAreNotDirections()
    ensures DirOfKey(PauseKey).None? && DirOfKey(ResumeKey).None?
    ensures PauseKey != ResumeKey
  {
  }

  /** The exact reverse of a direction. */
  function Opposite(d: Dir): (r: Dir)
    ensures r != d
    ensures Shift(r) == Point(-Shift(d).x, -Shift(d).y)
  {
    match d
    case Up => Down
    case Down => Up
    case Left => Right
    case Right => Left
  }

  /** Reversing twice gives back the direction. */
  lemma OppositeInvolution(d: Dir)
    ensures Opposite(Opposite(d)) == d
  {
  }

  /** The unit step a direction moves the head by. */
  function Shift(d: Dir): (r: Point)
    ensures Abs(r.x) + Abs(r.y) == 1
    ensures r.x == 0 <==> d == Up || d == Down
    ensures (d == Up ==> r.y > 0) && (d == Down ==> r.y < 0)
    ensures (d == Right ==> r.x > 0) && (d == Left ==> r.x < 0)
  {
    match d
    case Left => Point(-1, 0)
    case Right => Point(1, 0)
    case Up => Point(0, 1)
    case Down => Point(0, -1)
  }

  /** Reversing a direction negates its step, and distinct directions step differently. */
  lemma ShiftOpposite(d: Dir, e: Dir)
    ensures Shift(Opposite(d)) == Point(-Shift(d).x, -Shift(d).y)
    ensures Shift(d) == Shift(e) ==> d == e
  {
  }

  /** The neighbour of `p` in direction `d`. */
  function Step(p: Point, d: Dir): (r: Point)
    ensures Distance(p, r) == 1
  {
    Point(p.x + Shift(d).x, p.y + Shift(d).y)
  }

  /** A step and a step in the reverse direction cancel. */
  lemma StepBack(p: Point, d: Dir)
    ensures Step(Step(p, d), Opposite(d)) == p
  {
  }

  /* ---------- Membership ---------- */

  /** Whether `p` coincides with some element of `arr`, scanning from the front. */
  function Collide(p: Point, arr: seq<Point>): (r: bool)
    ensures r <==> exists i :: 0 <= i < |arr| && arr[i].x == p.x && arr[i].y == p.y
    ensures r <==> p in arr
  {
    if |arr| == 0 then false
    else if p.x == arr[0].x && p.y == arr[0].y then true
    else Collide(p, arr[1..])
  }

  /* ---------- The perimeter wall ---------- */

  /** A loop bound that does not run when it is not positive. */
  function Span(k: int): nat
  {
    if k > 0 then k else 0
  }

  /** x = 0, y rising from 0 to n-1. */
  function LeftSide(n: int): seq<Point>
  {
    seq(Span(n), i => Point(0, i))
  }

  /** x = n-1, y falling from n-2 to 0. */
  function RightSide(n: int): seq<Point>
  {
    seq(Span(n - 1), i => Point(n - 1, n - 2 - i))
  }

  /** y = n-1, x rising from 0 to n-1. */
  function TopSide(n: int): seq<Point>
  {
    seq(Span(n), i => Point(i, n - 1))
  }

  /** y = 0, x falling from n-2 to 1. */
  function BottomSide(n: int): seq<Point>
  {
    seq(Span(n - 2), i => Point(n - 2 - i, 0))
  }

  /** A cell of the outer ring of the n-by-n board. */
  predicate OnPerimeter(n: int, p: Point)
  {
    && 0 <= p.x < n && 0 <= p.y < n
    && (p.x == 0 || p.x == n - 1 || p.y == 0 || p.y == n - 1)
  }

  /** A cell strictly inside the ring. */
  predicate Interior(n: int, p: Point)
  {
    1 <= p.x <= n - 2 && 1 <= p.y <= n - 2
  }

  /** The wall in the order the four loops emit it: left, right, top, bottom. */
  function InitBox(n: int): (r: seq<Point>)
    ensures forall p :: p in r ==> OnPerimeter(n, p)
    ensures n >= 2 ==> |r| == 4 * n - 3
    ensures n >= 2 ==> r[n - 1] == r[2 * n - 1] == Point(0, n - 1)
  {
    LeftSide(n) + RightSide(n) + TopSide(n) + BottomSide(n)
  }

  /** Every perimeter cell is on the wall, and nothing else is. */
  lemma BoxIsPerimeter(n: int, p: Point)
    ensures p in InitBox(n) <==> OnPerimeter(n, p)
  {
    if OnPerimeter(n, p) {
      if p.x == 0 {
        assert LeftSide(n)[p.y] == p;
      } else if p.y == n - 1 {
        assert TopSide(n)[p.x] == p;
      } else if p.x == n - 1 {
        assert RightSide(n)[n - 2 - p.y] == p;
      } else {
        assert BottomSide(n)[n - 2 - p.x] == p;
      }
    }
  }

  /** A cell of the board is either on the wall or in the interior. */
  lemma OffBoxIsInterior(n: int, p: Point)
    requires 0 <= p.x < n && 0 <= p.y < n
    ensures !Collide(p, InitBox(n)) <==> Interior(n, p)
  {
    BoxIsPerimeter(n, p);
  }

  /* ---------- The initial snake ---------- */

  /** No cell occurs twice. */
  predicate Distinct(s: seq<Point>)
  {
    forall i, j :: 0 <= i < j < |s| ==> s[i] != s[j]
  }

  /** A vertical snake of `len` cells in column n/2, head at y = len, tail at y = 1. */
  function InitSnake(n: int, len: int): (r: seq<Point>)
    ensures |r| == Span(len)
    ensures forall p :: p in r ==> p.x == n / 2 && 1 <= p.y <= len
    ensures len >= 1 ==> r[0] == Point(n / 2, len) && r[|r| - 1] == Point(n / 2, 1)
    ensures forall i, j :: 0 <= i < j < |r| ==> r[i].y > r[j].y
    ensures Distinct(r)
    ensures len <= n - 2 ==> forall p :: p in r ==> Interior(n, p)
  {
    seq(Span(len), i => Point(n / 2, len - i))
  }
}

=== FILE: invariants.dfy ===
/**
 What stays true of a game across ticks and key presses: the level and the
 loop interval follow the tick count, and while the game is not over the
 snake's cells are pairwise distinct and strictly inside the wall, and the
 treat, if any, is an interior cell off the snake.
 */
module Invariants {

  import opened Geometry
  import opened GameState
  import opened Engine

  /** The loop interval after `level - 1` level-ups from the initial interval. */
  function IntervalAt(c: Config, level: int): int
  {
    Max(c.minInterval, InitialInterval - c.levelIncreaseM * (level - 1))
  }

  /** The board while the game is running. */
  predicate Alive(c: Config, g: Game)
  {
    && Distinct(g.snake)
    && (forall p :: p in g.snake ==> Interior(c.boxSize, p))
    && (g.treat.Some? ==> Interior(c.boxSize, g.treat.value) && g.treat.value !in g.snake)
  }

  predicate Inv(c: Config, g: Game)
  {
    && ValidConfig(c)
    && |g.snake| >= c.snakeLength
    && 0 <= g.state.lastKeyTick <= g.state.ticks
    && 0 <= g.state.lastTreatTick <= g.state.ticks
    && g.state.score >= 0
    && g.state.level == 1 + g.state.ticks / c.levelInterval
    && g.state.loopIntervalM == IntervalAt(c, g.state.level)
    && (!g.state.gameOver ==> Alive(c, g))
  }

  /* ---------- Arithmetic of the progression ---------- */

  /** A positive multiple of a positive number is at least that number. */
  lemma MulAtLeast(x: int, k: int)
    requires x >= 1 && k > 0
    ensures x * k >= k
  {
    assert x * k == (x - 1) * k + k;
  }

  /** Division by a positive number is determined by quotient and remainder. */
  lemma DivUnique(a: int, k: int, q: int, r: int)
    requires k > 0 && 0 <= r < k && a == q * k + r
    ensures a / k == q && a % k == r
  {
    var q', r' := a / k, a % k;
    assert q' * k + r' == a;
    assert (q - q') * k == r' - r by {
      assert (q - q') * k == q * k - q' * k;
    }
    if q > q' {
      MulAtLeast(q - q', k);
    } else if q < q' {
      MulAtLeast(q' - q, k);
    }
  }

  /** One more tick raises the quotient exactly when the new count is a multiple. */
  lemma {:induction false} DivStep(t: int, k: int)
    requires t >= 0 && k > 0
    ensures (t + 1) / k == t / k + (if (t + 1) % k == 0 then 1 else 0)
  {
    var q, r := t / k, t % k;
    if r + 1 == k {
      assert t + 1 == (q + 1) * k + 0;
      DivUnique(t + 1, k, q + 1, 0);
    } else {
      DivUnique(t + 1, k, q, r + 1);
    }
  }

  /** Lowering a clamped interval by one step and clamping again is one more step from the start. */
  lemma IntervalStep(c: Config, level: int)
    requires c.levelIncreaseM >= 0
    ensures Max(c.minInterval, IntervalAt(c, level) - c.levelIncreaseM) == IntervalAt(c, level + 1)
  {
    assert c.levelIncreaseM * level == c.levelIncreaseM * (level - 1) + c.levelIncreaseM;
  }

  /* ---------- A fresh game ---------- */

  lemma NewGameInv(c: Config)
    requires ValidConfig(c)
    ensures Inv(c, NewGame(c))
  {
  }

  /* ---------- Ticks ---------- */

  /** Prepending a cell absent from a distinct sequence keeps it distinct. */
  lemma {:induction false} DistinctCons(p: Point, s: seq<Point>)
    requires Distinct(s) && p !in s
    ensures Distinct([p] + s)
  {
    var t := [p] + s;
    forall i, j | 0 <= i < j < |t|
      ensures t[i] != t[j]
    {
      if i == 0 {
        assert t[j] == s[j - 1];
      } else {
        assert t[i] == s[i - 1] && t[j] == s[j - 1];
      }
    }
  }

  /** A move that is not fatal keeps the board alive. */
  lemma MoveKeepsAlive(c: Config, g: Game, high: int)
    requires ValidConfig(c) && |g.snake| > 0 && g.treat.Some?
    requires !g.state.gameOver && Alive(c, g)
    ensures var r := MoveSnake(c, g, high).game; !r.state.gameOver ==> Alive(c, r)
  {
    var r := MoveSnake(c, g, high).game;
    var head := NextHead(g);
    if !r.state.gameOver {
      var body := r.snake[1..];
      assert r.snake == [head] + body;
      assert forall p :: p in body ==> p in g.snake;
      assert Distinct(body);
      DistinctCons(head, body);
      assert Interior(c.boxSize, g.snake[0]);
      OnPerimeterOrInterior(c.boxSize, head);
    }
  }

  /** Every cell of the board is on the wall or in the interior. */
  lemma OnPerimeterOrInterior(n: int, p: Point)
    requires 0 <= p.x < n && 0 <= p.y < n
    ensures OnPerimeter(n, p) || Interior(n, p)
  {
  }

  /** Under the invariant the move that eats the treat is never fatal, so the score order is unobservable. */
  lemma EatingIsNeverFatal(c: Config, g: Game, high: int)
    requires Inv(c, g) && !g.state.gameOver && g.treat.Some? && Eats(g)
    ensures !MoveSnake(c, g, high).game.state.gameOver
    ensures MoveSnake(c, g, high).game.state.score == g.state.score + g.state.level
  {
  }

  /** Moving into the cell the tail just left is not a collision. */
  lemma TailChaseIsSafe(c: Config, g: Game, high: int)
    requires Inv(c, g) && !g.state.gameOver && g.treat.Some?
    requires |g.snake| >= 2 && NextHead(g) == g.snake[|g.snake| - 1] && !Eats(g)
    ensures !MoveSnake(c, g, high).game.state.gameOver
  {
    var r := MoveSnake(c, g, high).game;
    var last := |g.snake| - 1;
    assert r.snake[1..] == g.snake[..last];
    assert Interior(c.boxSize, g.snake[last]);
  }

  /** Placing a treat keeps the board alive and the counters in place. */
  lemma PlaceKeepsInv(c: Config, g: Game, draws: seq<Point>)
    requires Inv(c, g) && CanPlace(c, g, draws)
    ensures Inv(c, PlaceTreat(c, g, draws))
  {
  }

  /** The move keeps every part of the invariant that does not involve the tick count. */
  lemma MoveKeepsInv(c: Config, g: Game, high: int)
    requires Inv(c, g) && g.treat.Some?
    ensures Inv(c, MoveSnake(c, g, high).game)
    ensures |MoveSnake(c, g, high).game.snake| >= |g.snake|
  {
    var r := MoveSnake(c, g, high).game;
    assert |r.snake| >= |g.snake| by {
      assert |r.snake| == 1 + |r.snake[1..]|;
    }
    if !g.state.gameOver {
      MoveKeepsAlive(c, g, high);
    }
  }

  /** Counting the tick and levelling up keep the level and interval in step with the count. */
  lemma CountKeepsInv(c: Config, g: Game)
    requires Inv(c, g)
    ensures var s := LevelIncrease(c, g.state.(ticks := g.state.ticks + 1));
      Inv(c, g.(state := s))
  {
    DivStep(g.state.ticks, c.levelInterval);
    IntervalStep(c, g.state.level);
  }

  /** `update` keeps the invariant, including on the fatal tick. */
  lemma UpdateInv(c: Config, g: Game, high: int, draws: seq<Point>)
    requires Inv(c, g) && TickReady(c, g, draws)
    ensures Inv(c, Update(c, g, high, draws).game)
  {
    if !g.state.gameOver && !g.state.paused {
      assert CanPlace(c, g, draws);
      var placed := PlaceTreat(c, g, draws);
      PlaceKeepsInv(c, g, draws);
      var moved := MoveSnake(c, placed, high);
      MoveKeepsInv(c, placed, high);
      CountKeepsInv(c, moved.game);
      var counted := moved.game.state.(ticks := moved.game.state.ticks + 1);
      assert Update(c, g, high, draws).game == moved.game.(state := LevelIncrease(c, counted));
    }
  }

  /** `update` while running counts exactly one tick and never lowers the interval below the floor. */
  lemma UpdateAdvances(c: Config, g: Game, high: int, draws: seq<Point>)
    requires Inv(c, g) && CanPlace(c, g, draws) && !g.state.gameOver && !g.state.paused
    ensures var r := Update(c, g, high, draws).game;
      && r.state.ticks == g.state.ticks + 1
      && r.state.level == 1 + r.state.ticks / c.levelInterval
      && c.minInterval <= r.state.loopIntervalM <= g.state.loopIntervalM
  {
    UpdateInv(c, g, high, draws);
    var r := Update(c, g, high, draws).game;
    if r.state.level != g.state.level {
      IntervalStep(c, g.state.level);
    }
  }

  /** The HUD shows a label exactly when a tick would change nothing. */
  lemma LabelMeansFrozen(c: Config, g: Game, high: int, draws: seq<Point>)
    requires ValidConfig(c)
    requires !g.state.gameOver && !g.state.paused ==> |g.snake| > 0 && CanPlace(c, g, draws)
    ensures StateDescription(g.state) != "" <==> Update(c, g, high, draws) == Outcome(g, high)
  {
  }

  /* ---------- Keys ---------- */

  lemma KeyInv(c: Config, g: Game, k: int)
    requires Inv(c, g)
    ensures Inv(c, OnKeyDown(g, k))
  {
  }

  /** Requesting the exact reverse of the current direction changes nothing at all. */
  lemma ReverseKeyIgnored(g: Game)
    ensures OnKeyDown(g, KeyCode(Opposite(g.state.direction))) == g
  {
    KeyCodeRoundTrip(Opposite(g.state.direction));
  }

  /** After a turn is taken, every further key in the same tick is ignored, pause and resume included. */
  lemma OneTurnPerTick(g: Game, k1: int, k2: int)
    requires !KeysBlocked(g.state) && TurnAllowed(g.state, k1)
    ensures OnKeyDown(OnKeyDown(g, k1), k2) == OnKeyDown(g, k1)
  {
  }

  /** Pausing and resuming are idempotent and touch nothing but the flag. */
  lemma PauseResumeIdempotent(g: Game)
    ensures OnKeyDown(OnKeyDown(g, PauseKey), PauseKey) == OnKeyDown(g, PauseKey)
    ensures OnKeyDown(OnKeyDown(g, ResumeKey), ResumeKey) == OnKeyDown(g, ResumeKey)
    ensures !KeysBlocked(g.state) ==> OnKeyDown(g, PauseKey) == g.(state := g.state.(paused := true))
    ensures !KeysBlocked(g.state) ==> OnKeyDown(g, ResumeKey) == g.(state := g.state.(paused := false))
  {
    ControlKeysAreNotDirections();
  }

  /* ---------- A full board ---------- */

  /** When the snake covers every interior cell, no cell of the draw range is free. */
  lemma FullInteriorHasNoFreeDraw(c: Config, snake: seq<Point>)
    requires forall q :: Interior(c.boxSize, q) ==> q in snake
    ensures forall p :: InDrawRange(c.boxSize, p) ==> !FreeCell(c, snake, p)
  {
    forall p | InDrawRange(c.boxSize, p)
      ensures !FreeCell(c, snake, p)
    {
      BoxIsPerimeter(c.boxSize, p);
    }
  }

  /**
   On a full board the placement loop cannot stop: no stream of draws makes
   the next running tick callable, so no run continues past that state.
   */
  lemma FullBoardStalls(c: Config, g: Game, draws: seq<Point>)
    requires forall q :: Interior(c.boxSize, q) ==> q in g.snake
    requires g.treat.None? && !g.state.gameOver && !g.state.paused
    ensures !CanPlace(c, g, draws)
  {
    FullInteriorHasNoFreeDraw(c, g.snake);
  }

  /* ---------- Runs of events ---------- */

  /** What the host delivers: a tick with the random cells it draws, or a key press. */
  datatype Event = Tick(draws: seq<Point>) | Key(code: int)

  /** A tick is callable: a paused or finished game needs nothing, a running one a snake and a free draw. */
  predicate TickReady(c: Config, g: Game, draws: seq<Point>)
  {
    !g.state.gameOver && !g.state.paused ==> |g.snake| > 0 && CanPlace(c, g, draws)
  }

  /** Every tick of the run finds a free draw when it needs one. */
  predicate Feasible(c: Config, g: Game, high: int, events: seq<Event>)
    requires ValidConfig(c)
    decreases |events|
  {
    if |events| == 0 then true
    else match events[0]
      case Tick(d) =>
        && TickReady(c, g, d)
        && var o := Update(c, g, high, d); Feasible(c, o.game, o.highestScore, events[1..])
      case Key(k) => Feasible(c, OnKeyDown(g, k), high, events[1..])
  }

  /** The game and high score after a sequence of events. */
  function Run(c: Config, g: Game, high: int, events: seq<Event>): Outcome
    requires ValidConfig(c) && Feasible(c, g, high, events)
    decreases |events|
  {
    if |events| == 0 then Outcome(g, high)
    else match events[0]
      case Tick(d) =>
        var o := Update(c, g, high, d);
        Run(c, o.game, o.highestScore, events[1..])
      case Key(k) => Run(c, OnKeyDown(g, k), high, events[1..])
  }

  /** Over any run the invariant holds, ticks and high score never decrease, and game over is final. */
  lemma {:induction false} RunInv(c: Config, g: Game, high: int, events: seq<Event>)
    requires Inv(c, g) && Feasible(c, g, high, events)
    ensures var r := Run(c, g, high, events);
      && Inv(c, r.game)
      && r.highestScore >= high
      && r.game.state.ticks >= g.state.ticks
      && (g.state.gameOver ==> r == Outcome(g, high))
    decreases |events|
  {
    if |events| > 0 {
      match events[0]
      case Tick(d) =>
        var o := Update(c, g, high, d);
        UpdateInv(c, g, high, d);
        RunInv(c, o.game, o.highestScore, events[1..]);
      case Key(k) =>
        KeyInv(c, g, k);
        RunInv(c, OnKeyDown(g, k), high, events[1..]);
    }
  }

  /**
   A turn accepted while paused stamps `lastKeyTick` with a tick count that
   cannot advance while paused, so from then on no key (resume included) and
   no tick changes anything.
   */
  lemma {:induction false} PausedTurnFreezes(c: Config, g: Game, high: int, events: seq<Event>)
    requires ValidConfig(c) && g.state.paused && g.state.lastKeyTick == g.state.ticks
    requires Feasible(c, g, high, events)
    ensures Run(c, g, high, events) == Outcome(g, high)
    decreases |events|
  {
    if |events| > 0 {
      match events[0]
      case Tick(d) =>
        PausedTurnFreezes(c, g, high, events[1..]);
      case Key(k) =>
        PausedTurnFreezes(c, g, high, events[1..]);
    }
  }

  /** The situation above is reachable: a paused game that accepts a turn ignores the resume key. */
  lemma TurnWhilePausedBlocksResume(g: Game, k: int)
    requires g.state.paused && !KeysBlocked(g.state) && TurnAllowed(g.state, k)
    ensures var t := OnKeyDown(g, k);
      t.state.paused && t.state.lastKeyTick == t.state.ticks && OnKeyDown(t, ResumeKey) == t
  {
  }
}

=== FILE: options.dfy ===
/** The optional value used for the treat, which may be absent. */
module Options {

  datatype Option<T> = None | Some(value: T)
}
